=== FILE: README.md ===
# Rate limiter, cache-aside read and task worker over a shared Redis key space

This project models, in Dafny, the decision logic of a small Express + Mongoose + Redis
service and its background worker:

- the **fixed-window rate limiter** in front of `POST /users` (`rate:<ip>` counter, 5 requests
  per 60 s window, 429 above that, fail-open on any store error);
- the **cache-aside read path** of `GET /users/:id` (`user:<id>` cached for 60 s, switched by
  `USE_CACHE`);
- one iteration of the **worker loop** (`BRPOP task_queue`, `JSON.parse`, `processTask` writing
  `task_status:<taskId> = completed`, every error logged and skipped), and any number of them;
- the one-shot **first-request delay flag** of `node-server-2` and the **/health verdict**.

All Redis state lives in one key space (`KeyValue.Store`, a map from key to value and optional
deadline) with a logical clock `now` in seconds; a key is visible while `now` is at most its
deadline. Store calls that throw (lost connection, timeouts) are an explicit input, `Fault<Op>`,
naming the call of this request or iteration that throws: `FailAt` for a command that never took effect, `LostReply` for one Redis applied before the client threw.
The primary user store is a map from id to record. `JSON.stringify`/`JSON.parse` are function
parameters constrained to be a partial inverse pair (`UserCache.JsonCodec`, `Worker.PartialInverse`). Every operation is a pure function from inputs and store to a result
and a new store.

Modules: `Wrappers` (Option/Result), `KeyValue` (the Redis commands used), `Keys` (key names and
their disjointness), `RateLimiter`, `UserCache`, `Worker`, `ServerState` (first-request flag,
health) and `Isolation` (the three components cannot disturb each other's keys).

Consequences of the code that the model makes explicit:

- A cache-store failure ends the request with 500 `Fetch failed`, because a single `try`/`catch`
  surrounds the whole handler (server.js:158-160). There is no fallback to the primary store
  (`UserCache.GetUser`).
- No producer exists in `server.js` or `worker.js`, so statuses are only ever written as
  `completed`.
- `INCR` and `EXPIRE` are two separate calls. The request that opens a window is admitted
  without its counter getting a deadline in two cases: when `EXPIRE` throws, and when `INCR` is
  applied but its reply is lost, so `EXPIRE` is never sent. From then on every request after the
  fifth is refused, whatever the time (`RateLimiter.LostDeadlineBlocksForever`).
- A `BRPOP` whose reply is lost after Redis popped the element drops that task silently: it
  leaves the queue and no status is written (`Worker.Step`, outcome `Lost`).

## Model

| member | source | states |
|---|---|---|
| `KeyValue.Incr` | server.js:73 | INCR: a missing or expired key restarts from 0 with no deadline; a live counter goes up by one and keeps its deadline; text, lists and a counter at 2^63-1 give an error reply; no other key changes |
| `KeyValue.Expire` | server.js:76 | EXPIRE gives a live key the deadline `now + seconds` and leaves its value; on a missing key it does nothing and reports so |
| `KeyValue.Get` | server.js:146 | GET returns the live text under the key, nothing for a missing or expired key, and an error reply for a counter or list |
| `KeyValue.SetEx` | server.js:156 | SETEX makes the text visible at every time up to `now + seconds` and invisible after it; no other key changes |
| `KeyValue.Set` | worker.js:18 | SET makes the text visible at every time (any old deadline is cleared); no other key changes |
| `KeyValue.RPop` | worker.js:26 | the right-hand pop of BRPOP returns the last element and keeps the rest in order with the same deadline; the key goes once the list is empty; an empty queue is reported as "would block" and a non-list as an error |
| `Keys.RateKeyInjective` | server.js:69 | two addresses share a `rate:` key exactly when they are equal |
| `Keys.UserKeyInjective` | server.js:137 | two user ids share a `user:` key exactly when they are equal |
| `Keys.StatusKeyInjective` | worker.js:18 | two task ids share a `task_status:` key exactly when they are equal |
| `Keys.FamiliesDisjoint` | server.js:69 | no `rate:` key equals a `user:` key, a `task_status:` key or `task_queue`, and the other families are pairwise distinct too |
| `RateLimiter.RateLimit` | server.js:66-90 | only `rate:<ip>` changes; a throwing store call always admits, and so does an error reply to INCR (wrong type, not an integer, a counter at 2^63-1), which changes nothing; an INCR whose reply is lost still counts; a refusal happens exactly when the counter after a successful increment is above 5; a fresh or expired window restarts at count 1 with deadline `now + 60`; later requests count up and keep the deadline; when EXPIRE is never applied the counter stays at 1 with no deadline |
| `RateLimiter.Requests` | server.js:73-83 | a run of fault-free requests from one address yields one verdict per request and changes only that address's counter |
| `RateLimiter.CountingRun` | server.js:73-83 | from a live counter c, request i of a run before the deadline is admitted exactly when c + i + 1 <= 5, and the counter ends at c plus the number of requests with the same deadline |
| `RateLimiter.WindowBudget` | server.js:70-83 | within one window opened by the first request, requests 1 to 5 are admitted and every later one is refused; the counter ends at the number of requests with deadline first + 60 |
| `RateLimiter.NextWindowStartsOver` | server.js:71-77 | six requests inside one window give five admissions and one 429; a request after the deadline restarts at count 1 and is admitted |
| `RateLimiter.LostDeadlineBlocksForever` | server.js:73-89 | when EXPIRE throws, or INCR's reply is lost, on the request that opens a window, that request is admitted, the next four are admitted, and every later one is refused at any time |
| `RateLimiter.IndependentCounters` | server.js:68-73 | a request from one address changes nothing another address observes, and the other address's next verdict is the same as without it |
| `UserCache.GetUser` | server.js:134-161 | with the cache off there is one primary read and no cache call, giving the record or 404; with it on, the cache is asked first; a hit answers from the cached text without reading the primary store; an error reply to GET gives 500 and changes nothing; a miss (nothing live under the key, or an empty string) on an absent record gives 404 and writes nothing; such a miss on a present record returns it and caches its serialization for 60 s (a lost SETEX reply caches it and answers 500); a miss whose primary read throws, or whose SETEX throws before taking effect, gives 500 and writes nothing; any throwing call gives 500; only `user:<id>` can change, and only by a miss that reaches SETEX |
| `UserCache.HitIgnoresPrimary` | server.js:146-150 | on a cache hit the reply, the store and the calls made are the same whatever the primary store holds |
| `UserCache.StaleUntilTtl` | server.js:146-157 | after a miss has cached a record (even one whose SETEX reply was lost), reads up to 60 s later return that record from the cache alone, even if the primary store has changed; later reads go to the primary store again |
| `UserCache.WarmThenHit` | server.js:146-157 | reading a record (by a 24-hex-digit id) with an empty cache goes cache, primary, cache write; a second read within 60 s makes only the cache call and gives the same reply |
| `Worker.ProcessTask` | worker.js:13-20 | processTask takes effect exactly for a parsed object whose status write is applied (a lost SET reply included); then `task_status:<taskId>` holds `completed` with no deadline and nothing else changes |
| `Worker.Step` | worker.js:24-32 | one iteration waits exactly when the queue is empty and the pop does not throw, and a pop that throws before taking anything changes nothing; otherwise it removes exactly the last element and keeps the rest. The taken element is lost exactly when the pop reply is lost, dropped exactly when it does not parse, abandoned exactly when its fields cannot be read or rendered, or the status write throws before Redis applied it, and completed exactly otherwise, under the popped task's own id. Only the queue and that status key change |
| `Worker.Run` | worker.js:22-33 | any number of iterations of the endless loop, each ending in its own `catch`, change no key but the queue and task-status keys |
| `Worker.StepOnlyCompletes` | worker.js:18 | apart from the queue, the only key one iteration can change is a task-status key, set to `completed`; no key other than the queue disappears |
| `Worker.RunOnlyCompletes` | worker.js:18-31 | over any number of iterations the worker writes nothing but `completed`, and only to task-status keys, and removes no key other than the queue |
| `Worker.CompletedIsFinal` | worker.js:18 | once a task's status is `completed`, any number of later iterations leave it `completed` |
| `Worker.StepPops` | worker.js:26 | one iteration on a queue with no deadline removes its last element, and the key goes with the last one |
| `Worker.DrainsFromRight` | worker.js:24-26 | with pops that do not throw, k iterations on a queue of n >= k elements leave exactly its first n - k elements |
| `Worker.DrainRest` | worker.js:26 | after the first pop, the remaining iterations take the remaining elements from the right end |
| `Worker.EnqueuedTaskCompletes` | worker.js:26-28 | a serialized descriptor at the right end of the queue is completed by the next fault-free iteration, under its own task id |
| `ServerState.FirstRequestGate` | server.js:35-46 | a request is delayed only while the flag is unset, and the delay sets it; a set flag stays set and delays nothing; on any server but node-server-2 the flag never changes |
| `ServerState.Delays` | server.js:35-46 | of successive requests through the middleware, the first is delayed exactly when the server is node-server-2 and the flag is unset, and no later one is ever delayed |
| `ServerState.AtMostOneDelay` | server.js:33-44 | from process start, request i is delayed exactly when i is the first request and the server is node-server-2 |
| `ServerState.NeverAgain` | server.js:36-40 | once the flag is set, or on another server, no request is ever delayed |
| `ServerState.HealthCheck` | server.js:104-117 | the reply is 200 exactly when Mongo's ready state is 1 and Redis is ready, otherwise 500; each backend is labelled connected or down accordingly |
| `Isolation.WorkerLeavesServerKeys` | worker.js:18-26 | a worker iteration leaves every `rate:` counter and every cached user untouched |
| `Isolation.LimiterLeavesOtherKeys` | server.js:73-76 | a rate-limited request leaves the task queue, every task status and every cached user untouched |
| `Isolation.CacheLeavesOtherKeys` | server.js:146-156 | a user read leaves the task queue, every task status and every rate counter untouched |

## Left out

- Express routing, middleware order, `trust proxy` and `req.ip` extraction: the client address is an input string.
- Mongoose schema, connection and `User.create` (POST /users): the primary store is a map from id to record; it is only read.
- Redis and Mongo client creation and connection, and all console logging: I/O plumbing with no decision in it.
- The 40 s and 5 s `setTimeout` waits: `FirstRequestGate` says only whether a request is delayed, and the worker's simulated work takes no model time.
- A thrown `GET` or `findById` is the same whether or not the server saw the request: both only read.
- Concurrency: several servers or workers, and interleaving of other requests between `INCR` and `EXPIRE`; both calls of one request see the same `now`. Which worker receives a popped element is Redis's guarantee and is not modelled.
- The blocking wait of `BRPOP` with timeout 0: an empty queue gives the outcome `Waiting` with no change, standing for a pop that has not returned yet.
- The task producer and the `queued` status: no such code exists in the modelled files, so no FIFO order from producer to worker is claimed.
- Exact JSON text: serialization and parsing are parameters constrained only by the partial-inverse predicates.
- `process.uptime()`, `handledBy` and `server: 'up'` in the /health reply, and its `catch` branch: nothing modelled in that `try` can throw.
- Counters are a value kind of their own: Redis would also increment a numeric string written by SET, and would answer GET on a counter with its decimal text; neither happens in the modelled code.
- Expired keys stay in the map but are invisible to every command, where Redis removes them lazily or in the background.
- UserCache.GetUser: record ids are taken to be valid ObjectIds. The schema keeps Mongoose's default `_id`, so `findById` on any other id (such as `42`) always rejects with a cast error and the request answers 500; the model shows that only when the fault `FailAt(PrimaryFind)` is given.
- UserCache.GetUser: cached text that parses as JSON but is not a user record is returned as-is by the handler; the model only knows user records, so such text gives 500.
- RateLimiter.WindowBudget: assumes fewer than 2^63-1 requests in the window; beyond that INCR fails and the limiter admits again (fail-open).
- RateLimiter.CountingRun: assumes the counter plus the run stays below 2^63-1; beyond that INCR fails and the limiter admits again (fail-open).
- RateLimiter.LostDeadlineBlocksForever: assumes fewer than 2^63-1 requests on the counter that never gets a deadline; past that INCR fails and requests are admitted again (fail-open), so "forever" means up to that bound.
- Worker.DrainsFromRight: assumes the queue has no deadline and starts non-empty; the source never sets one on `task_queue`.

=== FILE: isolation.dfy ===
/**
 * The limiter, the cache-aside read path and the worker share one Redis
 * key space. Because their key families are disjoint, none of them can
 * disturb what the others have stored.
 */
module Isolation {
  import opened Wrappers
  import opened KeyValue
  import opened Keys
  import RateLimiter
  import UserCache
  import Worker

  /** A worker iteration leaves every rate counter and every cached user as it was. */
  lemma WorkerLeavesServerKeys(db: Store, now: nat, fault: Fault<Worker.Op>, parse: string -> Option<Worker.Value>,
                               ip: string, id: string)
    ensures var s := Worker.Step(db, now, fault, parse).store;
            SameAt(db, s, RateKey(ip)) && SameAt(db, s, UserKey(id))
  {
    ServerKeysOutsideWorker(ip, id);
  }

  /** A rate-limited request leaves the queue, every task status and every cached user as it was. */
  lemma LimiterLeavesOtherKeys(db: Store, ip: string, now: nat, fault: Fault<RateLimiter.Op>,
                               taskId: string, id: string)
    ensures var s := RateLimiter.RateLimit(db, ip, now, fault).store;
            SameAt(db, s, QueueKey) && SameAt(db, s, StatusKey(taskId)) && SameAt(db, s, UserKey(id))
  {
    FamiliesDisjoint(ip, id, taskId);
  }

  /** A user read leaves the queue, every task status and every rate counter as it was. */
  lemma CacheLeavesOtherKeys(useCache: bool, id: string, db: Store, primary: UserCache.Primary, now: nat,
                             fault: Fault<UserCache.Op>, encode: UserCache.User -> string,
                             decode: string -> Option<UserCache.User>, ip: string, taskId: string)
    ensures var s := UserCache.GetUser(useCache, id, db, primary, now, fault, encode, decode).store;
            SameAt(db, s, QueueKey) && SameAt(db, s, StatusKey(taskId)) && SameAt(db, s, RateKey(ip))
  {
    FamiliesDisjoint(ip, id, taskId);
  }
}

=== FILE: keys.dfy ===
/**
 * The Redis key names the server and the worker use, and the fact that the
 * four families of keys never collide, so each component owns its own keys.
 */
module Keys {

  /** Fixed-window counter of one client address (server.js, rate limiter). */
  function RateKey(ip: string): string { "rate:" + ip }

  /** Cached copy of one user record (server.js, GET /users/:id). */
  function UserKey(id: string): string { "user:" + id }

  /** Lifecycle state of one task (worker.js, processTask). */
  function StatusKey(taskId: string): string { "task_status:" + taskId }

  /** The list the worker pops descriptors from. */
  const QueueKey: string := "task_queue"

  const StatusPrefix: string := "task_status:"

  /** True of every key of the task-status family. */
  predicate IsStatusKey(k: string) {
    |StatusPrefix| <= |k| && k[..|StatusPrefix|] == StatusPrefix
  }

  /** Removing the prefix gives back the suffix, so each family is injective. */
  lemma PrefixCancels(p: string, s: string)
    ensures (p + s)[..|p|] == p
    ensures (p + s)[|p|..] == s
  {
  }

  lemma RateKeyInjective(a: string, b: string)
    ensures RateKey(a) == RateKey(b) <==> a == b
  {
    if RateKey(a) == RateKey(b) {
      PrefixCancels("rate:", a);
      PrefixCancels("rate:", b);
    }
  }

  lemma UserKeyInjective(a: string, b: string)
    ensures UserKey(a) == UserKey(b) <==> a == b
  {
    if UserKey(a) == UserKey(b) {
      PrefixCancels("user:", a);
      PrefixCancels("user:", b);
    }
  }

  lemma StatusKeyInjective(a: string, b: string)
    ensures StatusKey(a) == StatusKey(b) <==> a == b
  {
    if StatusKey(a) == StatusKey(b) {
      PrefixCancels(StatusPrefix, a);
      PrefixCancels(StatusPrefix, b);
    }
  }

  /** A status key is of the status family and is never the queue. */
  lemma StatusKeyFacts(taskId: string)
    ensures IsStatusKey(StatusKey(taskId))
    ensures StatusKey(taskId) != QueueKey
  {
  }

  /** The four key families are pairwise disjoint. */
  lemma FamiliesDisjoint(ip: string, id: string, taskId: string)
    ensures RateKey(ip) != UserKey(id)
    ensures RateKey(ip) != StatusKey(taskId)
    ensures RateKey(ip) != QueueKey
    ensures UserKey(id) != StatusKey(taskId)
    ensures UserKey(id) != QueueKey
    ensures StatusKey(taskId) != QueueKey
    ensures !IsStatusKey(RateKey(ip)) && !IsStatusKey(UserKey(id)) && !IsStatusKey(QueueKey)
  {
    assert RateKey(ip)[0] == 'r';
    assert UserKey(id)[0] == 'u';
    assert StatusKey(taskId)[0] == 't' && StatusKey(taskId)[5] == 's';
    assert QueueKey[0] == 't' && QueueKey[5] == 'q';
  }

  /** The server's own keys are neither the queue nor status keys, so the worker never touches them. */
  lemma ServerKeysOutsideWorker(ip: string, id: string)
    ensures !IsStatusKey(RateKey(ip)) && !IsStatusKey(UserKey(id))
    ensures RateKey(ip) != QueueKey && UserKey(id) != QueueKey
  {
    assert RateKey(ip)[0] == 'r';
    assert UserKey(id)[0] == 'u';
  }
}

=== FILE: kv_store.dfy ===
/**
 * The subset of the Redis key space the server and the worker share:
 * INCR, EXPIRE, GET, SET, SETEX and the right-hand pop of BRPOP.
 *
 * Time is a logical clock in whole seconds. Expiry is lazy: a key whose
 * deadline has passed is simply invisible to every command, as in Redis.
 */
module KeyValue {
  import opened Wrappers

  /** Largest value an INCR counter can reach (signed 64-bit). */
  const MaxCounter: int := 0x7FFF_FFFF_FFFF_FFFF

  /** A stored value: text, an INCR counter, or a list (tail = right end). */
  datatype Val = Str(s: string) | Counter(n: int) | List(items: seq<string>)

  /** `expiresAt` is the last second at which the key is still visible. */
  datatype Entry = Entry(val: Val, expiresAt: Option<nat>)

  type Store = map<string, Entry>

  /** Error replies of the modelled commands. */
  datatype StoreError = WrongType | NotAnInteger | Overflow

  /**
   * Which store call of one request or iteration throws (connection loss,
   * timeout), if any. `FailAt`: the command never took effect.
   * `LostReply`: Redis applied the command, then the client threw anyway.
   */
  datatype Fault<Op(==)> = NoFault | FailAt(call: Op) | LostReply(call: Op) {

    /** The call `op` throws, whether or not Redis applied it. */
    predicate Throws(op: Op) {
      !NoFault? && call == op
    }
  }

  predicate Live(e: Entry, now: nat) {
    e.expiresAt.None? || now <= e.expiresAt.value
  }

  /** What a client reading `key` at time `now` observes. */
  function Lookup(db: Store, key: string, now: nat): Option<Val> {
    if key in db && Live(db[key], now) then Some(db[key].val) else None
  }

  /** The live counter value under `key`, 0 when the key is absent or expired. */
  function CountAt(db: Store, key: string, now: nat): int {
    match Lookup(db, key, now)
    case Some(Counter(n)) => n
    case _ => 0
  }

  /** `key` holds the same entry (or is missing) in both stores. */
  predicate SameAt(db: Store, db': Store, key: string) {
    (key in db <==> key in db') && (key in db ==> db[key] == db'[key])
  }

  /** `db'` agrees with `db` on every key outside `keys`. */
  ghost predicate SameExcept(db: Store, db': Store, keys: set<string>) {
    forall k :: k !in keys ==> SameAt(db, db', k)
  }

  datatype Incremented = Incremented(count: int, store: Store)

  /**
   * INCR: a missing or expired key starts from 0 and carries no deadline;
   * a live counter keeps its deadline; text and lists are error replies.
   */
  function Incr(db: Store, key: string, now: nat): (r: Result<Incremented, StoreError>)
    ensures r.Ok? <==> (Lookup(db, key, now).None?
                        || (Lookup(db, key, now).value.Counter? && Lookup(db, key, now).value.n < MaxCounter))
    ensures r.Err? && Lookup(db, key, now).Some? && Lookup(db, key, now).value.Counter? ==> r.error == Overflow
    ensures r.Ok? ==> r.value.count == CountAt(db, key, now) + 1
    ensures r.Ok? ==> Lookup(r.value.store, key, now) == Some(Counter(r.value.count))
    ensures r.Ok? ==> r.value.store[key].expiresAt
                      == (if Lookup(db, key, now).Some? then db[key].expiresAt else None)
    ensures r.Ok? ==> SameExcept(db, r.value.store, {key})
  {
    match Lookup(db, key, now)
    case None => Ok(Incremented(1, db[key := Entry(Counter(1), None)]))
    case Some(Counter(n)) =>
      if n >= MaxCounter then Err(Overflow)
      else Ok(Incremented(n + 1, db[key := Entry(Counter(n + 1), db[key].expiresAt)]))
    case Some(Str(_)) => Err(NotAnInteger)
    case Some(List(_)) => Err(WrongType)
  }

  datatype Expired = Expired(applied: bool, store: Store)

  /** EXPIRE: gives a live key a new deadline `seconds` from now; 0 deletes it. */
  function Expire(db: Store, key: string, seconds: nat, now: nat): (r: Expired)
    ensures r.applied <==> Lookup(db, key, now).Some?
    ensures r.applied && seconds > 0 ==> key in r.store && r.store[key] == Entry(db[key].val, Some(now + seconds))
    ensures r.applied && seconds == 0 ==> key !in r.store
    ensures !r.applied ==> r.store == db
    ensures SameExcept(db, r.store, {key})
  {
    if Lookup(db, key, now).None? then Expired(false, db)
    else if seconds == 0 then Expired(true, db - {key})
    else Expired(true, db[key := db[key].(expiresAt := Some(now + seconds))])
  }

  /** GET: the text under a live key, nothing for a missing one, an error for other kinds. */
  function Get(db: Store, key: string, now: nat): (r: Result<Option<string>, StoreError>)
    ensures r == Ok(None) <==> Lookup(db, key, now).None?
    ensures r.Err? <==> Lookup(db, key, now).Some? && !Lookup(db, key, now).value.Str?
    ensures r.Ok? && r.value.Some? ==> Lookup(db, key, now) == Some(Str(r.value.value))
  {
    match Lookup(db, key, now)
    case None => Ok(None)
    case Some(Str(s)) => Ok(Some(s))
    case Some(_) => Err(WrongType)
  }

  /** SET: overwrites any value and clears any deadline. */
  function Set(db: Store, key: string, value: string): (r: Store)
    ensures forall t: nat :: Lookup(r, key, t) == Some(Str(value))
    ensures SameExcept(db, r, {key})
  {
    db[key := Entry(Str(value), None)]
  }

  /** SETEX: overwrites with text that stays visible for `seconds` more seconds. */
  function SetEx(db: Store, key: string, seconds: nat, value: string, now: nat): (r: Store)
    requires seconds > 0
    ensures forall t: nat :: t <= now + seconds ==> Lookup(r, key, t) == Some(Str(value))
    ensures forall t: nat :: t > now + seconds ==> Lookup(r, key, t).None?
    ensures SameExcept(db, r, {key})
  {
    db[key := Entry(Str(value), Some(now + seconds))]
  }

  datatype Popped = Popped(element: string, store: Store)

  /**
   * The right-hand pop of BRPOP. `Ok(None)` is an empty or missing list, on
   * which BRPOP would block; Redis deletes a list once its last element goes.
   */
  function RPop(db: Store, key: string, now: nat): (r: Result<Option<Popped>, StoreError>)
    ensures r == Ok(None) <==> Lookup(db, key, now).None? || Lookup(db, key, now) == Some(List([]))
    ensures r.Err? <==> Lookup(db, key, now).Some? && !Lookup(db, key, now).value.List?
    ensures r.Ok? && r.value.Some? ==>
              var items := Lookup(db, key, now).value.items;
              && |items| > 0
              && r.value.value.element == items[|items| - 1]
              && (|items| == 1 ==> key !in r.value.value.store)
              && (|items| > 1 ==>
                    key in r.value.value.store
                    && r.value.value.store[key] == db[key].(val := List(items[..|items| - 1])))
    ensures r.Ok? && r.value.Some? ==> SameExcept(db, r.value.value.store, {key})
  {
    match Lookup(db, key, now)
    case Some(List(items)) =>
      if |items| == 0 then Ok(None)
      else if |items| == 1 then Ok(Some(Popped(items[0], db - {key})))
      else Ok(Some(Popped(items[|items| - 1], db[key := db[key].(val := List(items[..|items| - 1]))])))
    case Some(_) => Err(WrongType)
    case None => Ok(None)
  }
}

=== FILE: rate_limiter.dfy ===
/**
 * The fixed-window rate limiter in front of POST /users: each request
 * increments `rate:<ip>`; the counter that has just become 1 gets a 60 s
 * deadline; a count above 5 is refused with 429; any store error lets the
 * request through.
 */
module RateLimiter {
  import opened Wrappers
  import opened KeyValue
  import opened Keys

  const Limit: int := 5
  const Window: nat := 60

  /** The two store calls the limiter makes. */
  datatype Op = IncrCall | ExpireCall

  /** `Admitted` is the call to next(); `Rejected` is the 429 reply. */
  datatype Verdict = Admitted | Rejected

  /** `failOpen` records that the catch branch ran. */
  datatype Decision = Decision(verdict: Verdict, store: Store, failOpen: bool)

  function RateLimit(db: Store, ip: string, now: nat, fault: Fault<Op>): (r: Decision)
    // Only the caller's own counter ever changes.
    ensures SameExcept(db, r.store, {RateKey(ip)})
    // Fail-open: a throwing store call never leads to a refusal.
    ensures r.failOpen ==> r.verdict == Admitted
    ensures fault.Throws(IncrCall) ==> r.failOpen
    ensures fault == FailAt(IncrCall) ==> r.store == db
    // An error reply to INCR (wrong type, not an integer, overflow) is caught too.
    ensures fault != FailAt(IncrCall) && Incr(db, RateKey(ip), now).Err? ==>
              r.failOpen && r.verdict == Admitted && r.store == db
    // An increment whose reply is lost still counts.
    ensures fault == LostReply(IncrCall) && Incr(db, RateKey(ip), now).Ok? ==>
              CountAt(r.store, RateKey(ip), now) == CountAt(db, RateKey(ip), now) + 1
    // A refusal is exactly a successful count above the limit.
    ensures r.verdict == Rejected <==> !r.failOpen && CountAt(r.store, RateKey(ip), now) > Limit
    ensures !r.failOpen ==> CountAt(r.store, RateKey(ip), now) == CountAt(db, RateKey(ip), now) + 1
    // A fresh or expired window restarts at 1 with a deadline 60 s ahead.
    ensures Lookup(db, RateKey(ip), now).None? && (fault == NoFault || fault == LostReply(ExpireCall)) ==>
              && r.verdict == Admitted
              && RateKey(ip) in r.store && r.store[RateKey(ip)] == Entry(Counter(1), Some(now + Window))
    // If EXPIRE is never applied, the counter is left without a deadline.
    ensures Lookup(db, RateKey(ip), now).None? && (fault == FailAt(ExpireCall) || fault == LostReply(IncrCall)) ==>
              && r.verdict == Admitted && r.failOpen
              && RateKey(ip) in r.store && r.store[RateKey(ip)] == Entry(Counter(1), None)
    // Later requests in the window count up and leave the deadline alone.
    ensures (Lookup(db, RateKey(ip), now) == Some(Counter(CountAt(db, RateKey(ip), now)))
             && 1 <= CountAt(db, RateKey(ip), now) < MaxCounter && !fault.Throws(IncrCall)) ==>
              && !r.failOpen && RateKey(ip) in r.store
              && r.store[RateKey(ip)] == Entry(Counter(CountAt(db, RateKey(ip), now) + 1), db[RateKey(ip)].expiresAt)
  {
    var key := RateKey(ip);
    if fault == FailAt(IncrCall) then Decision(Admitted, db, true)
    else
      match Incr(db, key, now)
      case Err(_) => Decision(Admitted, db, true)
      case Ok(Incremented(current, db1)) =>
        if fault == LostReply(IncrCall) then Decision(Admitted, db1, true)
        else if current == 1 && fault == FailAt(ExpireCall) then Decision(Admitted, db1, true)
        else if current == 1 && fault == LostReply(ExpireCall) then
          Decision(Admitted, Expire(db1, key, Window, now).store, true)
        else
          var db2 := if current == 1 then Expire(db1, key, Window, now).store else db1;
          Decision(if current > Limit then Rejected else Admitted, db2, false)
  }

  datatype Run = Run(verdicts: seq<Verdict>, store: Store)

  /** Fault-free requests from one address at the given times, in order. */
  function Requests(db: Store, ip: string, times: seq<nat>): (r: Run)
    ensures |r.verdicts| == |times|
    ensures SameExcept(db, r.store, {RateKey(ip)})
    decreases |times|
  {
    if |times| == 0 then Run([], db)
    else
      var d := RateLimit(db, ip, times[0], NoFault);
      var rest := Requests(d.store, ip, times[1..]);
      Run([d.verdict] + rest.verdicts, rest.store)
  }

  /**
   * From a live counter `c` with deadline `deadline` (None: no deadline),
   * every request before the deadline counts one more, and the i-th is
   * admitted exactly when c + i + 1 stays within the limit.
   */
  lemma {:induction false} CountingRun(db: Store, ip: string, times: seq<nat>, c: int, deadline: Option<nat>)
    requires RateKey(ip) in db && db[RateKey(ip)] == Entry(Counter(c), deadline)
    requires 1 <= c && c + |times| < MaxCounter
    requires deadline.Some? ==> forall i :: 0 <= i < |times| ==> times[i] <= deadline.value
    ensures var r := Requests(db, ip, times);
            && (forall i :: 0 <= i < |times| ==> (r.verdicts[i] == Admitted <==> c + i + 1 <= Limit))
            && RateKey(ip) in r.store && r.store[RateKey(ip)] == Entry(Counter(c + |times|), deadline)
    decreases |times|
  {
    if |times| > 0 {
      var key := RateKey(ip);
      assert Lookup(db, key, times[0]) == Some(Counter(c));
      var d := RateLimit(db, ip, times[0], NoFault);
      assert d.store[key] == Entry(Counter(c + 1), deadline);
      assert d.verdict == Admitted <==> c + 1 <= Limit;
      var rest := times[1..];
      assert deadline.Some? ==> forall i :: 0 <= i < |rest| ==> rest[i] <= deadline.value by {
        if deadline.Some? {
          forall i | 0 <= i < |rest| ensures rest[i] <= deadline.value {
            assert rest[i] == times[i + 1];
          }
        }
      }
      CountingRun(d.store, ip, rest, c + 1, deadline);
      var r := Requests(db, ip, times);
      forall i | 1 <= i < |times| ensures r.verdicts[i] == Admitted <==> c + i + 1 <= Limit {
        assert r.verdicts[i] == Requests(d.store, ip, rest).verdicts[i - 1];
      }
    }
  }

  /**
   * Within one window opened by the first request, requests 1 to 5 are
   * admitted and every later one is refused with 429.
   */
  lemma {:induction false} WindowBudget(db: Store, ip: string, times: seq<nat>)
    requires |times| > 0 && |times| < MaxCounter
    requires Lookup(db, RateKey(ip), times[0]).None?
    requires forall i :: 0 <= i < |times| ==> times[0] <= times[i] <= times[0] + Window
    ensures var r := Requests(db, ip, times);
            forall i :: 0 <= i < |times| ==> (r.verdicts[i] == Admitted <==> i < Limit)
    ensures var r := Requests(db, ip, times);
            RateKey(ip) in r.store && r.store[RateKey(ip)] == Entry(Counter(|times|), Some(times[0] + Window))
  {
    var key := RateKey(ip);
    var d := RateLimit(db, ip, times[0], NoFault);
    assert d.store[key] == Entry(Counter(1), Some(times[0] + Window));
    var rest := times[1..];
    forall i | 0 <= i < |rest| ensures rest[i] <= times[0] + Window {
      assert rest[i] == times[i + 1];
    }
    CountingRun(d.store, ip, rest, 1, Some(times[0] + Window));
    var r := Requests(db, ip, times);
    forall i | 1 <= i < |times| ensures r.verdicts[i] == Admitted <==> i < Limit {
      assert r.verdicts[i] == Requests(d.store, ip, rest).verdicts[i - 1];
    }
  }

  /**
   * Six requests inside one window: five admitted, the sixth refused; a
   * seventh after the window has passed starts a new window and is admitted.
   */
  lemma {:induction false} NextWindowStartsOver(db: Store, ip: string, times: seq<nat>, later: nat)
    requires |times| == Limit + 1
    requires Lookup(db, RateKey(ip), times[0]).None?
    requires forall i :: 0 <= i < |times| ==> times[0] <= times[i] <= times[0] + Window
    requires later > times[0] + Window
    ensures var r := Requests(db, ip, times);
            && r.verdicts == [Admitted, Admitted, Admitted, Admitted, Admitted, Rejected]
            && RateLimit(r.store, ip, later, NoFault).verdict == Admitted
            && CountAt(RateLimit(r.store, ip, later, NoFault).store, RateKey(ip), later) == 1
  {
    WindowBudget(db, ip, times);
    var r := Requests(db, ip, times);
    assert Lookup(r.store, RateKey(ip), later).None?;
  }

  /**
   * When EXPIRE never takes effect on the request that opens a window
   * (EXPIRE throws, or INCR is applied but its reply is lost so EXPIRE is
   * never sent), the counter never expires: whatever the times of the later
   * fault-free requests, the next four are admitted and every one after
   * them is refused.
   */
  lemma {:induction false} LostDeadlineBlocksForever(db: Store, ip: string, now: nat, fault: Fault<Op>, times: seq<nat>)
    requires fault == FailAt(ExpireCall) || fault == LostReply(IncrCall)
    requires Lookup(db, RateKey(ip), now).None?
    requires |times| + 1 < MaxCounter
    ensures var first := RateLimit(db, ip, now, fault);
            var r := Requests(first.store, ip, times);
            && first.verdict == Admitted
            && forall i :: 0 <= i < |times| ==> (r.verdicts[i] == Admitted <==> i < Limit - 1)
  {
    var first := RateLimit(db, ip, now, fault);
    CountingRun(first.store, ip, times, 1, None);
  }

  /** A request from one address leaves what every other address observes untouched. */
  lemma IndependentCounters(db: Store, ip: string, other: string, now: nat, fault: Fault<Op>,
                            later: nat, otherFault: Fault<Op>)
    requires ip != other
    ensures var d := RateLimit(db, ip, now, fault);
            && (forall t: nat :: Lookup(d.store, RateKey(other), t) == Lookup(db, RateKey(other), t))
            && RateLimit(d.store, other, later, otherFault).verdict == RateLimit(db, other, later, otherFault).verdict
  {
    RateKeyInjective(ip, other);
    var d := RateLimit(db, ip, now, fault);
    assert RateKey(other) in d.store <==> RateKey(other) in db;
    assert RateKey(other) in db ==> d.store[RateKey(other)] == db[RateKey(other)];
  }
}

=== FILE: server_misc.dfy ===
/**
 * The two small pieces of per-process logic in the server: the one-shot
 * delay of the first request on node-server-2, and the /health verdict.
 */
module ServerState {

  /** The only server name whose first request is held back. */
  const DelayedServer: string := "node-server-2"

  /** `delayed`: this request waits before going on; `handled`: the flag afterwards. */
  datatype Gate = Gate(delayed: bool, handled: bool)

  /** The middleware that reads and sets `firstRequestHandled`. */
  function FirstRequestGate(serverName: string, handled: bool): (r: Gate)
    ensures r.delayed ==> !handled && r.handled
    ensures handled ==> r.handled && !r.delayed
    ensures serverName != DelayedServer ==> r.handled == handled && !r.delayed
  {
    if serverName == DelayedServer && !handled then Gate(true, true) else Gate(false, handled)
  }

  /** Which of `n` successive requests are delayed, starting from the flag `handled`. */
  function Delays(serverName: string, handled: bool, n: nat): (r: seq<bool>)
    ensures |r| == n
    // Only the first request can be held back, and only on node-server-2 with the flag unset.
    ensures n > 0 ==> (r[0] <==> serverName == DelayedServer && !handled)
    ensures forall i :: 0 < i < n ==> !r[i]
    decreases n
  {
    if n == 0 then []
    else
      var g := FirstRequestGate(serverName, handled);
      [g.delayed] + Delays(serverName, g.handled, n - 1)
  }

  /**
   * From process start (flag false), request i is delayed exactly when it
   * is the first one and the server is node-server-2: at most one request
   * is ever delayed, and on any other server none is. Both this and
   * NeverAgain follow from the contract of Delays.
   */
  lemma AtMostOneDelay(serverName: string, n: nat)
    ensures forall i :: 0 <= i < n ==>
              (Delays(serverName, false, n)[i] <==> i == 0 && serverName == DelayedServer)
  {
  }

  /** Once set, the flag delays nothing; on another server, an unset flag delays nothing. */
  lemma NeverAgain(serverName: string, handled: bool, n: nat)
    requires handled || serverName != DelayedServer
    ensures forall i :: 0 <= i < n ==> !Delays(serverName, handled, n)[i]
  {
  }

  /** The verdict part of the /health reply. */
  datatype Health = Health(code: int, mongo: string, redis: string)

  /** Mongoose's `connection.readyState` value for "connected". */
  const MongoConnected: int := 1

  function HealthCheck(mongoReadyState: int, redisReady: bool): (r: Health)
    ensures r.mongo == "connected" <==> mongoReadyState == MongoConnected
    ensures r.redis == "connected" <==> redisReady
    ensures r.mongo in {"connected", "down"} && r.redis in {"connected", "down"}
    // Healthy (200) exactly when both backends report connected; 500 otherwise.
    ensures r.code == 200 <==> r.mongo == "connected" && r.redis == "connected"
    ensures r.code in {200, 500}
  {
    var mongo := if mongoReadyState == MongoConnected then "connected" else "down";
    var redis := if redisReady then "connected" else "down";
    var healthy := mongoReadyState == MongoConnected && redisReady;
    Health(if healthy then 200 else 500, mongo, redis)
  }
}

=== FILE: user_cache.dfy ===
/**
 * GET /users/:id: the cache-aside read path. With caching off the handler
 * reads only the primary store; with caching on it tries `user:<id>` first
 * and, on a miss, reads the primary store and caches the record for 60 s.
 * Any thrown error becomes a 500 reply.
 */
module UserCache {
  import opened Wrappers
  import opened KeyValue
  import opened Keys

  datatype User = User(id: string, name: string, email: string)

  /** The primary record store, by identifier (findById). */
  type Primary = map<string, User>

  const Ttl: nat := 60

  /** The store calls the handler can make, in the order it makes them. */
  datatype Op = CacheGet | PrimaryFind | CacheSet

  /** 200 with a record, 404 `Not found`, or 500 `Fetch failed`. */
  datatype Response = Found(user: User) | NotFound | FetchFailed

  /** `trace` lists the store calls attempted, the failing one included. */
  datatype Reply = Reply(response: Response, store: Store, trace: seq<Op>)

  /**
   * JSON.stringify and JSON.parse on user records: parsing what was
   * serialized gives the record back, and a serialized object is never the
   * empty string.
   */
  ghost predicate JsonCodec(encode: User -> string, decode: string -> Option<User>) {
    forall u :: decode(encode(u)) == Some(u) && encode(u) != ""
  }

  /** The cached text that counts as a hit: a live, non-empty string (`if (cached)`). */
  function Cached(db: Store, id: string, now: nat): Option<string> {
    match Lookup(db, UserKey(id), now)
    case Some(Str(s)) => if s != "" then Some(s) else None
    case _ => None
  }

  function GetUser(useCache: bool, id: string, db: Store, primary: Primary, now: nat,
                   fault: Fault<Op>, encode: User -> string, decode: string -> Option<User>): (r: Reply)
    // Only the record's own cache key can change, and only by a miss that reaches SETEX.
    ensures SameExcept(db, r.store, {UserKey(id)})
    ensures r.store != db ==> useCache && CacheSet in r.trace && (r.response.Found? || fault == LostReply(CacheSet))
    // Cache off: no cache call at all; the primary store decides.
    ensures !useCache ==> r.trace == [PrimaryFind] && r.store == db
    ensures !useCache && !fault.Throws(PrimaryFind) ==>
              r.response == (if id in primary then Found(primary[id]) else NotFound)
    // Cache on: the cache is always asked first.
    ensures useCache ==> |r.trace| > 0 && r.trace[0] == CacheGet
    // Hit: the cached text is the answer and the primary store is not read.
    ensures useCache && !fault.Throws(CacheGet) && Cached(db, id, now).Some? ==>
              && r.trace == [CacheGet] && r.store == db
              && r.response == (match decode(Cached(db, id, now).value)
                                case Some(u) => Found(u)
                                case None => FetchFailed)
    // An error reply to GET (the key holds a list or a counter) ends with 500.
    ensures useCache && !fault.Throws(CacheGet) && Get(db, UserKey(id), now).Err? ==>
              r.response == FetchFailed && r.store == db && r.trace == [CacheGet]
    // Miss (nothing cached, or an empty string) on an absent record: 404 and nothing written.
    ensures useCache && !fault.Throws(CacheGet) && !fault.Throws(PrimaryFind)
            && Get(db, UserKey(id), now).Ok? && Cached(db, id, now).None?
            && id !in primary ==>
              r.response == NotFound && r.store == db && r.trace == [CacheGet, PrimaryFind]
    // Miss on a present record: the record is cached for 60 s and returned
    // (a SETEX applied but whose reply is lost caches it and still replies 500).
    ensures useCache && (fault == NoFault || fault == LostReply(CacheSet))
            && Get(db, UserKey(id), now).Ok? && Cached(db, id, now).None?
            && id in primary ==>
              && r.response == (if fault == NoFault then Found(primary[id]) else FetchFailed)
              && r.trace == [CacheGet, PrimaryFind, CacheSet]
              && forall t: nat :: now <= t <= now + Ttl ==> Lookup(r.store, UserKey(id), t) == Some(Str(encode(primary[id])))
    // A miss whose primary read throws: 500 and nothing written.
    ensures useCache && !fault.Throws(CacheGet) && Get(db, UserKey(id), now).Ok? && Cached(db, id, now).None?
            && fault.Throws(PrimaryFind) ==>
              r.response == FetchFailed && r.store == db && r.trace == [CacheGet, PrimaryFind]
    // A miss on a present record whose SETEX throws before taking effect: 500 and nothing written.
    ensures useCache && fault == FailAt(CacheSet) && Get(db, UserKey(id), now).Ok? && Cached(db, id, now).None?
            && id in primary ==>
              r.response == FetchFailed && r.store == db && r.trace == [CacheGet, PrimaryFind, CacheSet]
    // Any throwing call ends the request with 500.
    ensures !fault.NoFault? && fault.call in r.trace ==> r.response == FetchFailed
  {
    if !useCache then
      if fault.Throws(PrimaryFind) then Reply(FetchFailed, db, [PrimaryFind])
      else if id in primary then Reply(Found(primary[id]), db, [PrimaryFind])
      else Reply(NotFound, db, [PrimaryFind])
    else
      var key := UserKey(id);
      if fault.Throws(CacheGet) then Reply(FetchFailed, db, [CacheGet])
      else
        match Get(db, key, now)
        case Err(_) => Reply(FetchFailed, db, [CacheGet])
        case Ok(cached) =>
          if cached.Some? && cached.value != "" then
            match decode(cached.value)
            case Some(u) => Reply(Found(u), db, [CacheGet])
            case None => Reply(FetchFailed, db, [CacheGet])
          else if fault.Throws(PrimaryFind) then Reply(FetchFailed, db, [CacheGet, PrimaryFind])
          else if id !in primary then Reply(NotFound, db, [CacheGet, PrimaryFind])
          else if fault == FailAt(CacheSet) then Reply(FetchFailed, db, [CacheGet, PrimaryFind, CacheSet])
          else
            var db' := SetEx(db, key, Ttl, encode(primary[id]), now);
            if fault == LostReply(CacheSet) then Reply(FetchFailed, db', [CacheGet, PrimaryFind, CacheSet])
            else Reply(Found(primary[id]), db', [CacheGet, PrimaryFind, CacheSet])
  }

  /** On a hit the reply does not depend on the primary store at all. */
  lemma HitIgnoresPrimary(id: string, db: Store, p1: Primary, p2: Primary, now: nat,
                          fault: Fault<Op>, encode: User -> string, decode: string -> Option<User>)
    requires Cached(db, id, now).Some?
    ensures GetUser(true, id, db, p1, now, fault, encode, decode)
            == GetUser(true, id, db, p2, now, fault, encode, decode)
  {
  }

  /**
   * Staleness until the TTL: after a miss has cached a record, a read
   * within 60 s returns that record from the cache even if the primary
   * store has changed or lost it since; a read after 60 s goes back to
   * the primary store. This holds as well when the SETEX reply was lost
   * and the first read itself answered 500.
   */
  lemma StaleUntilTtl(id: string, db: Store, primary: Primary, now: nat, fault: Fault<Op>,
                      primary': Primary, later: nat,
                      encode: User -> string, decode: string -> Option<User>)
    requires JsonCodec(encode, decode)
    requires fault == NoFault || fault == LostReply(CacheSet)
    requires Lookup(db, UserKey(id), now).None? && id in primary
    requires now <= later
    ensures var first := GetUser(true, id, db, primary, now, fault, encode, decode);
            var second := GetUser(true, id, first.store, primary', later, NoFault, encode, decode);
            && first.response == (if fault == NoFault then Found(primary[id]) else FetchFailed)
            && (later <= now + Ttl ==> second.response == Found(primary[id]) && second.trace == [CacheGet])
            && (later > now + Ttl ==>
                  second.trace[..2] == [CacheGet, PrimaryFind] && second.response.Found? == (id in primary'))
  {
  }

  /** A well-formed record identifier: the 24 hex digits of an ObjectId. */
  const SomeId: string := "64b7f0c2a1e4d5f6a7b8c9d0"

  /**
   * Reading one record twice with an empty cache: the first read goes to
   * the primary store and fills the cache, the second within the TTL is
   * served from the cache alone.
   */
  lemma WarmThenHit(db: Store, primary: Primary, now: nat, later: nat,
                    encode: User -> string, decode: string -> Option<User>)
    requires JsonCodec(encode, decode)
    requires UserKey(SomeId) !in db && SomeId in primary
    requires now <= later <= now + Ttl
    ensures var first := GetUser(true, SomeId, db, primary, now, NoFault, encode, decode);
            var second := GetUser(true, SomeId, first.store, primary, later, NoFault, encode, decode);
            && first.trace == [CacheGet, PrimaryFind, CacheSet]
            && second.trace == [CacheGet]
            && second.response == first.response
  {
  }
}

=== FILE: worker.dfy ===
/**
 * The worker: each iteration of its endless loop pops one descriptor from
 * the right end of `task_queue`, parses it, and (in processTask) marks
 * `task_status:<taskId>` as `completed`. Any error is logged and the loop
 * goes on to the next pop.
 */
module Worker {
  import opened Wrappers
  import opened KeyValue
  import opened Keys

  /**
   * What processTask makes of a parsed queue element. `Nullish`: reading or
   * rendering its fields throws, as for `null` or for a field whose
   * conversion to text throws (say `{"taskId":{"toString":1}}`). `Task`:
   * the text the template literal renders for `taskId` and `message`. A
   * missing field renders as "undefined", so an object without them, a
   * number, a string, a boolean or an array gives `Task("undefined", "undefined")`.
   */
  datatype Value = Nullish | Task(taskId: string, message: string)

  const CompletedText: string := "completed"

  /** The entry processTask leaves under a finished task's status key. */
  const Done: Entry := Entry(Str(CompletedText), None)

  /** The two store calls of one iteration. */
  datatype Op = PopCall | SetCall

  /**
   * `Waiting`: the queue is empty and the blocking pop has not returned yet.
   * `PopFailed`: the pop threw before taking anything, or the key is not a list.
   * `Lost`: Redis popped the element but the reply never arrived.
   * `Malformed`: JSON.parse threw.
   * `Abandoned`: processTask threw before its status write took effect.
   */
  datatype Outcome =
    | Waiting
    | PopFailed
    | Lost(element: string)
    | Malformed(element: string)
    | Abandoned(element: string)
    | Completed(taskId: string)

  datatype Iteration = Iteration(outcome: Outcome, store: Store)

  /**
   * processTask: after the simulated work, SET task_status:<taskId> completed.
   * A SET that Redis applied but whose reply is lost leaves the same store;
   * only the log line differs.
   */
  function ProcessTask(db: Store, task: Value, fault: Fault<Op>): (r: Option<Store>)
    ensures r.Some? <==> task.Task? && fault != FailAt(SetCall)
    ensures r.Some? ==> forall t: nat :: Lookup(r.value, StatusKey(task.taskId), t) == Some(Str(CompletedText))
    ensures r.Some? ==> StatusKey(task.taskId) in r.value && r.value[StatusKey(task.taskId)] == Done
    ensures r.Some? ==> SameExcept(db, r.value, {StatusKey(task.taskId)})
  {
    match task
    case Nullish => None
    case Task(taskId, _) =>
      if fault == FailAt(SetCall) then None
      else Some(Set(db, StatusKey(taskId), CompletedText))
  }

  /** The queue as the worker sees it at `now` (empty when missing or expired). */
  function Pending(db: Store, now: nat): seq<string> {
    match Lookup(db, QueueKey, now)
    case Some(List(items)) => items
    case _ => []
  }

  /** The element BRPOP returns: the right end of the queue. */
  function Top(db: Store, now: nat): string
    requires |Pending(db, now)| > 0
  {
    Pending(db, now)[|Pending(db, now)| - 1]
  }

  /** The iteration takes an element: the pop is sent and the queue is not empty. */
  predicate Takes(db: Store, now: nat, fault: Fault<Op>) {
    fault != FailAt(PopCall) && |Pending(db, now)| > 0
  }

  /** Keys an iteration with this outcome may write besides the queue. */
  function Written(o: Outcome): set<string> {
    if o.Completed? then {StatusKey(o.taskId)} else {}
  }

  /** One iteration of the startWorker loop. */
  function Step(db: Store, now: nat, fault: Fault<Op>, parse: string -> Option<Value>): (r: Iteration)
    // Nothing happens while the queue is empty or when the pop throws before taking anything.
    ensures fault == FailAt(PopCall) ==> r.outcome == PopFailed && r.store == db
    ensures r.outcome.PopFailed? <==> fault == FailAt(PopCall)
                                      || (Lookup(db, QueueKey, now).Some? && !Lookup(db, QueueKey, now).value.List?)
    ensures r.outcome.Waiting? <==> fault != FailAt(PopCall) && |Pending(db, now)| == 0
                                    && (Lookup(db, QueueKey, now).None? || Lookup(db, QueueKey, now).value.List?)
    ensures r.outcome.Waiting? || r.outcome.PopFailed? ==> r.store == db
    // Otherwise exactly one element is taken, from the right end, and the rest stays as it was.
    ensures Takes(db, now, fault) <==> !(r.outcome.Waiting? || r.outcome.PopFailed?)
    ensures Takes(db, now, fault) ==>
              && (|Pending(db, now)| == 1 ==> QueueKey !in r.store)
              && (|Pending(db, now)| > 1 ==>
                    QueueKey in r.store
                    && r.store[QueueKey] == db[QueueKey].(val := List(Pending(db, now)[..|Pending(db, now)| - 1])))
    // What happens to the taken element.
    ensures r.outcome.Lost? <==> Takes(db, now, fault) && fault == LostReply(PopCall)
    ensures r.outcome.Malformed? <==>
              Takes(db, now, fault) && fault != LostReply(PopCall) && parse(Top(db, now)).None?
    ensures r.outcome.Abandoned? <==>
              && Takes(db, now, fault) && fault != LostReply(PopCall)
              && (parse(Top(db, now)) == Some(Nullish) || (parse(Top(db, now)).Some? && fault == FailAt(SetCall)))
    ensures r.outcome.Completed? <==>
              && Takes(db, now, fault) && fault != LostReply(PopCall) && fault != FailAt(SetCall)
              && parse(Top(db, now)).Some? && parse(Top(db, now)).value.Task?
    ensures r.outcome.Lost? || r.outcome.Malformed? || r.outcome.Abandoned? ==> r.outcome.element == Top(db, now)
    // Completion is recorded for the task that was popped.
    ensures r.outcome.Completed? ==>
              && r.outcome.taskId == parse(Top(db, now)).value.taskId
              && StatusKey(r.outcome.taskId) in r.store && r.store[StatusKey(r.outcome.taskId)] == Done
    // Nothing but the queue and the popped task's status key changes.
    ensures SameExcept(db, r.store, {QueueKey} + Written(r.outcome))
  {
    if fault == FailAt(PopCall) then Iteration(PopFailed, db)
    else
      match RPop(db, QueueKey, now)
      case Err(_) => Iteration(PopFailed, db)
      case Ok(None) => Iteration(Waiting, db)
      case Ok(Some(Popped(element, db1))) =>
        if fault == LostReply(PopCall) then Iteration(Lost(element), db1)
        else
          match parse(element)
          case None => Iteration(Malformed(element), db1)
          case Some(task) =>
            match ProcessTask(db1, task, fault)
            case None => Iteration(Abandoned(element), db1)
            case Some(db2) =>
              StatusKeyFacts(task.taskId);
              Iteration(Completed(task.taskId), db2)
  }

  /** One loop iteration's clock reading and injected store failure. */
  datatype Tick = Tick(now: nat, fault: Fault<Op>)

  /** Any number of loop iterations: the worker only ever touches the queue and status keys. */
  function Run(db: Store, ticks: seq<Tick>, parse: string -> Option<Value>): (r: Store)
    ensures forall k :: k != QueueKey && !IsStatusKey(k) ==> SameAt(db, r, k)
    decreases |ticks|
  {
    if |ticks| == 0 then db
    else Run(Step(db, ticks[0].now, ticks[0].fault, parse).store, ticks[1..], parse)
  }

  /** Every key that differs between `db` and `db'` is the queue or a status set to `completed`. */
  ghost predicate OnlyCompletions(db: Store, db': Store) {
    forall k :: k in db' && k != QueueKey && (k !in db || db'[k] != db[k]) ==> IsStatusKey(k) && db'[k] == Done
  }

  lemma StepOnlyCompletes(db: Store, tick: Tick, parse: string -> Option<Value>)
    ensures OnlyCompletions(db, Step(db, tick.now, tick.fault, parse).store)
    ensures forall k :: k !in Step(db, tick.now, tick.fault, parse).store && k in db ==> k == QueueKey
  {
  }

  /**
   * Over any number of iterations the worker writes nothing but `completed`,
   * and only to task-status keys; besides the queue, no key disappears.
   */
  lemma {:induction false} RunOnlyCompletes(db: Store, ticks: seq<Tick>, parse: string -> Option<Value>)
    ensures OnlyCompletions(db, Run(db, ticks, parse))
    ensures forall k :: k in db && k != QueueKey ==> k in Run(db, ticks, parse)
    decreases |ticks|
  {
    if |ticks| > 0 {
      var mid := Step(db, ticks[0].now, ticks[0].fault, parse).store;
      StepOnlyCompletes(db, ticks[0], parse);
      RunOnlyCompletes(mid, ticks[1..], parse);
    }
  }

  /** Once a task's status is `completed`, no later iteration changes it. */
  lemma {:induction false} CompletedIsFinal(db: Store, taskId: string, ticks: seq<Tick>, parse: string -> Option<Value>)
    requires StatusKey(taskId) in db && db[StatusKey(taskId)] == Done
    ensures StatusKey(taskId) in Run(db, ticks, parse) && Run(db, ticks, parse)[StatusKey(taskId)] == Done
    decreases |ticks|
  {
    if |ticks| > 0 {
      var mid := Step(db, ticks[0].now, ticks[0].fault, parse).store;
      StatusKeyFacts(taskId);
      RunOnlyCompletes(db, ticks[..1], parse);
      assert Run(db, ticks[..1], parse) == Run(mid, [], parse);
      CompletedIsFinal(mid, taskId, ticks[1..], parse);
    }
  }

  /** One iteration on a queue without deadline removes its last element. */
  lemma StepPops(db: Store, items: seq<string>, tick: Tick, parse: string -> Option<Value>)
    requires QueueKey in db && db[QueueKey] == Entry(List(items), None)
    requires |items| > 0 && tick.fault != FailAt(PopCall)
    ensures var s := Step(db, tick.now, tick.fault, parse).store;
            && (|items| == 1 ==> QueueKey !in s)
            && (|items| > 1 ==> QueueKey in s && s[QueueKey] == Entry(List(items[..|items| - 1]), None))
  {
  }

  /**
   * With a queue that has no deadline and pops that do not throw, k
   * iterations take exactly the last k elements and leave the first ones.
   */
  lemma {:induction false} DrainsFromRight(db: Store, items: seq<string>, ticks: seq<Tick>, parse: string -> Option<Value>)
    requires QueueKey in db && db[QueueKey] == Entry(List(items), None)
    requires 0 < |items| && |ticks| <= |items|
    requires forall i :: 0 <= i < |ticks| ==> ticks[i].fault != FailAt(PopCall)
    ensures var r := Run(db, ticks, parse);
            |items| - |ticks| > 0 ==> QueueKey in r && r[QueueKey] == Entry(List(items[..|items| - |ticks|]), None)
    ensures var r := Run(db, ticks, parse);
            |items| == |ticks| ==> QueueKey !in r
    decreases |ticks|, 1
  {
    if |ticks| == 0 {
      assert items[..|items|] == items;
    } else {
      var s := Step(db, ticks[0].now, ticks[0].fault, parse).store;
      StepPops(db, items, ticks[0], parse);
      assert Run(db, ticks, parse) == Run(s, ticks[1..], parse);
      if |items| == 1 {
        assert |ticks[1..]| == 0;
        assert Run(s, ticks[1..], parse) == s;
      } else {
        DrainRest(s, items, ticks, parse);
      }
    }
  }

  /** The inductive step of DrainsFromRight, after the first pop. */
  lemma {:induction false} DrainRest(s: Store, items: seq<string>, ticks: seq<Tick>, parse: string -> Option<Value>)
    requires 1 < |items| && 0 < |ticks| <= |items|
    requires QueueKey in s && s[QueueKey] == Entry(List(items[..|items| - 1]), None)
    requires forall i :: 0 <= i < |ticks| ==> ticks[i].fault != FailAt(PopCall)
    ensures var r := Run(s, ticks[1..], parse);
            |items| - |ticks| > 0 ==> QueueKey in r && r[QueueKey] == Entry(List(items[..|items| - |ticks|]), None)
    ensures var r := Run(s, ticks[1..], parse);
            |items| == |ticks| ==> QueueKey !in r
    decreases |ticks|, 0
  {
    var rest := items[..|items| - 1];
    var tail := ticks[1..];
    forall i | 0 <= i < |tail| ensures tail[i].fault != FailAt(PopCall) {
      assert tail[i] == ticks[i + 1];
    }
    DrainsFromRight(s, rest, tail, parse);
    assert rest[..|rest| - |tail|] == items[..|items| - |ticks|];
  }

  /** JSON.stringify and JSON.parse on descriptors: parsing gives back what was serialized. */
  ghost predicate PartialInverse(encode: Value -> string, parse: string -> Option<Value>) {
    forall v :: parse(encode(v)) == Some(v)
  }

  /**
   * A well-formed descriptor at the right end of the queue is completed by
   * the next fault-free iteration, under its own task id.
   */
  lemma EnqueuedTaskCompletes(db: Store, now: nat, taskId: string, message: string,
                              encode: Value -> string, parse: string -> Option<Value>)
    requires PartialInverse(encode, parse)
    requires |Pending(db, now)| > 0 && Pending(db, now)[|Pending(db, now)| - 1] == encode(Task(taskId, message))
    ensures var r := Step(db, now, NoFault, parse);
            && r.outcome == Completed(taskId)
            && Lookup(r.store, StatusKey(taskId), now) == Some(Str(CompletedText))
  {
  }
}

=== FILE: wrappers.dfy ===
/** Failure-compatible wrappers used throughout the model. */
module Wrappers {

  /** A value that may be absent (a missing key, a failed parse). */
  datatype Option<+T> = None | Some(value: T)

  /** The outcome of a store command: a value, or the error the command replies with. */
  datatype Result<+T, +E> = Ok(value: T) | Err(error: E)
}
